=== FILE: README.md ===
# call-tree: a Dafny model of the gdb `call-tree` command

`call_tree.py` defines a gdb user command, `call-tree [--depth N]`, that
single-steps the debugged program from the current frame and records which
function is active at every pause, keyed by its call depth relative to the
frame the command started in. It keeps stepping (`step`) while the depth is
below the limit, runs to the end of the current function (`finish`) once the
limit is reached, and stops tracing and prints what it recorded when
execution is back in the starting frame.

This project models the command's state machine with gdb reduced to values:

- a stack is a sequence of frame identities, newest first (`DepthTracker.Chain`);
- the newest frame's function name is a string given with each pause;
- `step` and `finish` are `Directive`s listed in the order issued;
- connecting and disconnecting the stop handler is the `subscribed` flag;
- printed lines are returned as `seq<string>`.

Modules:

- `Options` (options.dfy): the optional value.
- `Text` (text.dfy): Python's `str.split()` and the decimal subset of `int()`,
  with their round trips.
- `DepthTracker` (depth.dfy): the depth walk of the stop handler.
- `CallTree` (calltree.dfy): the depth-to-names dictionary, the append it
  receives at every pause, and `print_tree`'s output.
- `CallTreeCommand` (command.dfy): the command's fields, `invoke`,
  `stop_handler`, and the invariant they keep.
- `Runs` (runs.dfy): the handler applied to a sequence of pauses, with
  append-only and termination properties.
- `Scenarios` (scenarios.dfy): concrete sessions.

## Behaviour worth knowing

- The recorded structure is a dictionary from depth to a list of names, not
  a tree of nodes with parent links. A return to a caller records the caller's
  name again at its depth (see `Scenarios.FlatCalls`).
- A stalled step, meaning a pause at the same depth as the previous one, issues
  an extra `step`. It does not return: the name is recorded and the usual
  directive follows, so one pause can issue two directives. A stall at depth 0
  still ends the session (`Scenarios.StallAtStart`).
- The comment in `stop_handler` says a stall never happens at the limit.
  That holds only when every `finish` lands in a shallower frame
  (`Runs.StallBelowLimit`). If a pause after `finish` is not shallower, a
  stall at the limit issues `step` and then `finish`.
- If the starting frame is not on the stack, the depth is the stack's
  length. It is not 0, and the session does not end.
- `--depth` accepts negative integers. With a limit of 0 or less, every
  depth above 0 gets `finish`.
- The depth bound is the larger of the limit and 1 (`Runs.RunDepthBound`).
  With a limit of 0 or less, depth 1 is still recorded, because the first
  call is recorded before its `finish`.
- A pause with no frame only prints an error. The handler stays connected.
- The starting function is recorded only when execution returns to it. No
  root is created when the command starts.
- The depth limit is kept from one invocation to the next. An invocation
  without `--depth N` reuses the last limit.

## Model

| member | source | states |
|---|---|---|
| `Text.Split` | call_tree.py:21 | every token `arg.split()` yields is non-empty and holds no whitespace |
| `Text.SplitAtSpace` | call_tree.py:21 | every whitespace character separates tokens: the tokens around it are those of the text before it followed by those of the text after it |
| `Text.SplitUnwords` | call_tree.py:21 | splitting whitespace-free tokens joined by blanks gives the same tokens back |
| `Text.ConcatSplit` | call_tree.py:21 | the tokens, concatenated, are exactly the input's non-whitespace characters in order |
| `Text.ParseInt` | call_tree.py:23-27 | `int(token)` succeeds exactly on an optional sign followed by ASCII decimal digits (the subset and length limit are under Left out); the sign decides the sign of the value |
| `Text.ParseShowInt` | call_tree.py:24 | `int(str(n)) == n` for every integer `n`, negative ones included |
| `DepthTracker.Depth` | call_tree.py:56-62 | the depth is the index of the first occurrence of the initial frame in the newest-first stack, or the stack's length when it does not occur (always so when no initial frame is stored) |
| `DepthTracker.DepthZero` | call_tree.py:57-62 | the depth is 0 exactly when the newest frame is the initial frame |
| `DepthTracker.DepthIsFirstIndex` | call_tree.py:60-62 | when the initial frame first occurs at index `k`, the depth is `k` |
| `DepthTracker.DepthPush` | call_tree.py:60-62 | a new newest frame other than the initial one adds exactly one to the depth |
| `CallTree.Record` | call_tree.py:73-75 | recording appends the name at the end of its depth's list (a new one-element list for a new depth) and leaves every other depth's list unchanged, so every earlier key and entry is kept |
| `CallTree.Tabs` | call_tree.py:96 | `"\t" * d` is `d` tab characters, and none when `d` is not positive |
| `CallTree.SortedKeys` | call_tree.py:94 | `sorted(keys)` lists every key exactly once in strictly ascending order |
| `CallTree.Render` | call_tree.py:91-96 | `print_tree` prints one line per recorded name (its exact order and text are stated by `CallTree.RenderOrder`) |
| `CallTree.RenderOrder` | call_tree.py:94-96 | the `j`-th name under the `i`-th smallest depth is printed after all names under smaller depths and the `j` earlier names under its own depth, as that many tabs followed by the name |
| `CallTree.RenderEmpty` | call_tree.py:94-96 | an empty dictionary prints nothing |
| `CallTreeCommand.Start` | call_tree.py:29-44 | the reset after parsing leaves a state satisfying the invariant whatever state it starts from: no negative depth stored and the session not done |
| `CallTreeCommand.Invoke` | call_tree.py:18-44 | a non-integer depth prints the error and changes nothing; otherwise the limit is set as parsed, then the reset and start follow; the state invariant (no negative depth stored, a finished session disconnected with its return to depth 0 recorded) is preserved |
| `CallTreeCommand.Stop` | call_tree.py:46-88 | a finished session or a missing frame changes nothing and issues nothing. Otherwise the new depth is the walked depth and the name is appended under it. A leading `step` is issued exactly when the depth did not change. At depth 0 the session ends, the handler disconnects and the dictionary is printed. At any other depth the last directive is `step` exactly when the depth is below the limit, and `finish` otherwise. At most two directives are issued, the dictionary is only appended to, and the state invariant is preserved |
| `CallTreeCommand.RegisteredValid` | call_tree.py:10-16 | the freshly registered command satisfies the state invariant |
| `CallTreeCommand.InvokeSetsDepth` | call_tree.py:21-24 | `--depth N` sets the limit to `N` for every integer `N` |
| `CallTreeCommand.InvokeKeepsLimit` | call_tree.py:21-22 | any argument other than exactly `--depth` and one more word leaves the limit the previous invocation set |
| `CallTreeCommand.InvokeRejects` | call_tree.py:22-27 | `--depth X` with a non-integer word `X` changes nothing, issues nothing and prints the error |
| `Runs.RunAt` | call_tree.py:41 | the connected handler handles each pause from the state the previous pause left |
| `Runs.RunFromDone` | call_tree.py:48-49 | once done, every further pause is ignored |
| `Runs.RunSilentAfterDone` | call_tree.py:48-49 | after the pause that ends the session, no later pause changes the state, issues a directive or prints anything |
| `Runs.EndsOnce` | call_tree.py:78-81 | at most one pause of a run ends the session |
| `Runs.RunExtendsStart` | call_tree.py:73-75 | every dictionary in a run extends the starting one |
| `Runs.RunAppendOnly` | call_tree.py:73-75 | the dictionary at a later pause extends the one at any earlier pause |
| `Runs.RunValid` | call_tree.py:46-88 | every state of a run from a valid state is valid |
| `Runs.KeepsFields` | call_tree.py:46-88 | no pause changes the depth limit or the initial frame that depths are measured from |
| `Runs.StallAfterStep` | call_tree.py:64-66 | a pause at the depth the previous pause recorded, when that pause's `finish` would have landed shallower, is below the limit |
| `Runs.DepthAfterPause` | call_tree.py:78-88 | after a pause that does not end the session, when `step` enters at most one call and `finish` lands shallower, the next depth stays within any bound that covers both the limit and the current depth |
| `Runs.WithinAfterStop` | call_tree.py:56-75 | a pause whose depth is within a bound keeps the current depth and every recorded depth within it |
| `Runs.RunDepthBound` | call_tree.py:4-88 | assume a run starts tracing with an empty dictionary, its first pause is at most one call deep, each `step` enters at most one call, and each `finish` lands shallower; then no depth above the larger of the limit and 1 is ever reached or recorded |
| `Runs.StallBelowLimit` | call_tree.py:64-66 | in a run where every `finish` lands in a shallower frame, a stall at a depth above 0 is always below the limit, as the comment in `stop_handler` says |
| `Scenarios.Launch` | call_tree.py:21-44 | `call-tree --depth N` with a frame starts tracing with an empty dictionary, depth 0 and one `step` |
| `Scenarios.FlatCallsDown` | call_tree.py:56-85 | entering `foo` then `bar` with a limit of 2 issues `step` then `finish` |
| `Scenarios.FlatCallsBack` | call_tree.py:56-85 | returning from `bar` to `foo` records `foo` a second time at depth 1 and steps |
| `Scenarios.FlatCallsEnd` | call_tree.py:72-81 | returning to `main` records it at depth 0 and ends the session |
| `Scenarios.FlatCalls` | call_tree.py:46-88 | the whole `main`, `foo`, `bar` session: `step`, `finish`, `step`, then the end, with `foo` recorded twice |
| `Scenarios.DepthCap` | call_tree.py:83-88 | with limit 1, `finish` is issued at depth 1, and in this run nothing deeper is recorded |
| `Scenarios.StallAtStart` | call_tree.py:64-81 | a first step that stays in `main` issues the retry `step`, then ends the session and prints only `main` |

## Left out

- The gdb API (`gdb.newest_frame`, `Frame.older`, `Frame.name`,
  `gdb.execute`, `gdb.events.stop`) is not called. Its results are inputs and
  its effects are outputs. `gdb.newest_frame` raises instead of returning
  `None` when nothing runs; the model takes the `None` the code checks for.
- Re-entrancy is not modelled. A `step` issued inside the handler can raise a
  nested stop event in gdb; the model handles each pause to completion, and a
  nested pause is the next element of the run.
- The debug prints (call_tree.py:69-70) and the `Call Tree:` header
  (call_tree.py:93) are not part of the output. The error messages and the
  tree lines are.
- `Text.ParseInt` models `int()` only for ASCII decimal digits with an
  optional sign. Python also accepts underscores between digits and
  non-ASCII decimal digits; the model rejects both. Current CPython versions
  also refuse conversions longer than 4300 digits, raising `ValueError`;
  the model has no length limit. So `call-tree --depth` with a number of more
  than 4300 digits prints the error in Python but sets the limit here.
- `Text.ParseShowInt`: the round trip `int(str(n)) == n` holds in Python
  only below the same 4300-digit cap; the model states it for every integer.
- `CallTreeCommand.InvokeSetsDepth`: sets the limit for every integer `N`.
  Python does so only for `N` of at most 4300 digits.
- `frame.name()` returning `None`, and the `TypeError` it causes in
  `print_tree`, are not modelled. Names are plain strings.
- Command registration (call_tree.py:3-11, 99) is not modelled. Only the
  initial field values are, as `CallTreeCommand.Registered`.
- `CallTreeCommand.Session.subscribed`: one flag stands for the handler's
  connection. An `invoke` while a session is still connected connects the
  handler a second time in gdb; the model does not count connections.
- `Runs.Run`: its own contract only fixes the number of outcomes. It applies
  the handler to every pause it is given, and the caller supplies only pauses
  that happen while the handler is connected. `Runs.RunAt` states the
  step-by-step meaning.

=== FILE: calltree.dfy ===
/** The command's call tree: a dictionary from depth to the names recorded
    at that depth, in the order they were recorded, and its printout. */
module CallTree {

  /** `self.call_tree`: there are no parent links, only depth keys. */
  type Tree = map<int, seq<string>>

  /** Record one observed function `name` at depth `d`: create the key's
      empty list when it is missing, then append. */
  function Record(t: Tree, d: int, name: string): (t': Tree)
    ensures t'.Keys == t.Keys + {d}
    ensures d in t ==> t'[d] == t[d] + [name]
    ensures d !in t ==> t'[d] == [name]
    ensures forall k :: k in t && k != d ==> t'[k] == t[k]
    ensures Extends(t, t')
  {
    var names := if d in t then t[d] else [];
    t[d := names + [name]]
  }

  /** `t'` grows `t` only by appending: every key stays and every list
      keeps its earlier entries as a prefix. */
  predicate Extends(t: Tree, t': Tree) {
    forall k :: k in t ==> k in t' && t[k] <= t'[k]
  }

  lemma ExtendsReflexive(t: Tree)
    ensures Extends(t, t)
  {
  }

  lemma ExtendsTransitive(t0: Tree, t1: Tree, t2: Tree)
    requires Extends(t0, t1) && Extends(t1, t2)
    ensures Extends(t0, t2)
  {
    forall k | k in t0
      ensures k in t2 && t0[k] <= t2[k]
    {
      assert t0[k] == t1[k][..|t0[k]|];
      assert t1[k] == t2[k][..|t1[k]|];
    }
  }

  /** `"\t" * d` in Python: `d` tab characters, none when `d` is not positive. */
  function Tabs(d: int): (s: string)
    ensures |s| == (if d > 0 then d else 0)
    ensures forall i :: 0 <= i < |s| ==> s[i] == '\t'
    decreases if d > 0 then d else 0
  {
    if d <= 0 then [] else ['\t'] + Tabs(d - 1)
  }

  /** One printed line: the name indented by its depth. */
  function Line(d: int, name: string): string {
    Tabs(d) + name
  }

  /** The lines for one key, in insertion order. */
  function Lines(d: int, names: seq<string>): (ls: seq<string>)
    ensures |ls| == |names|
    ensures forall j :: 0 <= j < |names| ==> ls[j] == Line(d, names[j])
  {
    seq(|names|, j requires 0 <= j < |names| => Line(d, names[j]))
  }

  lemma {:induction false} MinExists(ks: set<int>, x: int)
    requires x in ks
    ensures exists m :: m in ks && forall k :: k in ks ==> m <= k
    decreases |ks|
  {
    var rest := ks - {x};
    if rest == {} {
      assert ks == {x};
    } else {
      NonEmptyHasMember(rest);
      var y :| y in rest;
      MinExists(rest, y);
      var m :| m in rest && forall k :: k in rest ==> m <= k;
      var least := if x < m then x else m;
      forall k | k in ks ensures least <= k {
        if k != x {
          assert k in rest;
        }
      }
      assert least in ks;
    }
  }

  /** Supplies the existential that `:|` needs to pick a member of a
      non-empty set: a set with no members is the empty set. */
  lemma NonEmptyHasMember(ks: set<int>)
    requires ks != {}
    ensures exists k :: k in ks
  {
    if forall k :: k !in ks {
      assert false;
    }
  }

  /** The least key of a non-empty key set. */
  function MinKey(ks: set<int>): (m: int)
    requires ks != {}
    ensures m in ks
    ensures forall k :: k in ks ==> m <= k
  {
    NonEmptyHasMember(ks);
    var x :| x in ks;
    MinExists(ks, x);
    var m :| m in ks && forall k :: k in ks ==> m <= k;
    m
  }

  /** `sorted(keys)`: the keys in strictly ascending order. */
  function SortedKeys(ks: set<int>): (r: seq<int>)
    ensures |r| == |ks|
    ensures forall i :: 0 <= i < |r| ==> r[i] in ks
    ensures forall k :: k in ks ==> k in r
    ensures forall i, j :: 0 <= i < j < |r| ==> r[i] < r[j]
    decreases |ks|
  {
    if ks == {} then []
    else
      var m := MinKey(ks);
      [m] + SortedKeys(ks - {m})
  }

  /** The lines for the given keys, one key after another. */
  function RenderKeys(t: Tree, ks: seq<int>): seq<string>
    requires forall i :: 0 <= i < |ks| ==> ks[i] in t
  {
    if ks == [] then [] else Lines(ks[0], t[ks[0]]) + RenderKeys(t, ks[1..])
  }

  /** `print_tree` without its header: every recorded name, by ascending
      depth and, within one depth, in recording order. */
  function Render(t: Tree): (ls: seq<string>)
    ensures |ls| == Size(t)
  {
    RenderKeysLength(t, SortedKeys(t.Keys));
    RenderKeys(t, SortedKeys(t.Keys))
  }

  /** How many names the given keys hold together. */
  function Count(t: Tree, ks: seq<int>): nat
    requires forall i :: 0 <= i < |ks| ==> ks[i] in t
  {
    if ks == [] then 0 else |t[ks[0]]| + Count(t, ks[1..])
  }

  /** How many names the tree holds. */
  function Size(t: Tree): nat {
    Count(t, SortedKeys(t.Keys))
  }

  lemma {:induction false} RenderKeysLength(t: Tree, ks: seq<int>)
    requires forall p :: 0 <= p < |ks| ==> ks[p] in t
    ensures |RenderKeys(t, ks)| == Count(t, ks)
  {
    if ks != [] {
      RenderKeysLength(t, ks[1..]);
    }
  }

  /** Entry `j` under the `i`-th listed key is printed right after every
      entry of the keys listed before it. */
  lemma {:induction false} RenderKeysAt(t: Tree, ks: seq<int>, i: nat, j: nat)
    requires forall p :: 0 <= p < |ks| ==> ks[p] in t
    requires i < |ks| && j < |t[ks[i]]|
    ensures Count(t, ks[..i]) + j < |RenderKeys(t, ks)|
    ensures RenderKeys(t, ks)[Count(t, ks[..i]) + j] == Line(ks[i], t[ks[i]][j])
  {
    var head := Lines(ks[0], t[ks[0]]);
    var rest := ks[1..];
    assert RenderKeys(t, ks) == head + RenderKeys(t, rest);
    if i == 0 {
      assert ks[..0] == [];
    } else {
      RenderKeysAt(t, rest, i - 1, j);
      assert ks[..i][1..] == rest[..i - 1];
      assert Count(t, ks[..i]) == |head| + Count(t, rest[..i - 1]);
      assert ks[i] == rest[i - 1];
    }
  }

  lemma RenderIsRenderKeys(t: Tree, ks: seq<int>)
    requires ks == SortedKeys(t.Keys)
    ensures Render(t) == RenderKeys(t, ks)
  {
  }

  /** With `ks` the depths in ascending order, the `j`-th name recorded
      under `ks[i]` is printed, indented by its depth, right after all the
      names recorded under smaller depths and the `j` names recorded before
      it under the same depth. */
  lemma RenderOrder(t: Tree, ks: seq<int>, i: nat, j: nat)
    requires ks == SortedKeys(t.Keys)
    requires i < |ks| && j < |t[ks[i]]|
    ensures Count(t, ks[..i]) + j < |Render(t)|
    ensures Render(t)[Count(t, ks[..i]) + j] == Line(ks[i], t[ks[i]][j])
  {
    RenderIsRenderKeys(t, ks);
    RenderKeysAt(t, ks, i, j);
  }

  /** The empty tree prints nothing. */
  lemma RenderEmpty()
    ensures Render(map[]) == []
  {
    var empty: Tree := map[];
    assert empty.Keys == {};
  }

}

=== FILE: command.dfy ===
/** The `call-tree` command: the state it keeps between invocations, the
    start of a session (`invoke`) and the reaction to one pause of the
    debugged program (`stop_handler`). The debugger is reduced to what the
    command observes (the frame chain and the newest frame's name) and what
    it issues (`step` and `finish` directives, connecting and disconnecting
    its stop handler, printed lines). */
module CallTreeCommand {

  import opened Options
  import opened Text
  import opened DepthTracker
  import opened CallTree

  /** The two execution commands the handler sends to the debugger. */
  datatype Directive = Step | Finish

  /** The command object's fields. `subscribed` stands for the stop handler
      being connected to the debugger's stop events. */
  datatype Session = Session(
    maxDepth: int,
    callTree: Tree,
    currentDepth: int,
    done: bool,
    initial: Option<FrameId>,
    subscribed: bool)

  /** What one call of `invoke` or of the stop handler leaves behind: the
      new state, the directives issued in order, and the lines printed. */
  datatype Outcome = Outcome(session: Session, directives: seq<Directive>, output: seq<string>)

  /** The state right after the command is registered. */
  const Registered: Session := Session(2, map[], 0, false, None, false)

  const DepthNotInteger: string := "Error: Depth must be an integer."
  const NoInitialFrame: string := "Error: no initial frame"
  const NoFrame: string := "Error: no frame"

  /** The argument shape that sets the depth limit: exactly two words, the
      first being `--depth`. */
  predicate IsDepthOption(args: seq<string>) {
    |args| == 2 && args[0] == "--depth"
  }

  /** The depth limit after parsing `arg`, or `None` when the number given
      after `--depth` is not an integer. Any other argument shape keeps the
      current limit. */
  function ParseDepthLimit(arg: string, current: int): Option<int> {
    var args := Split(arg);
    if IsDepthOption(args) then ParseInt(args[1]) else Some(current)
  }

  /** The part of `invoke` after argument parsing: reset, store the newest
      frame as the initial one, and, when there is one, connect the stop
      handler and issue the first `step`. Whatever state it starts from,
      the reset leaves a state satisfying the invariant. */
  function Start(s: Session, newest: Option<FrameId>): (o: Outcome)
    ensures Valid(o.session)
    ensures o.session.callTree == map[] && o.session.currentDepth == 0 && !o.session.done
    ensures o.session.initial == newest && o.session.maxDepth == s.maxDepth
    ensures o.session.subscribed <==> s.subscribed || newest.Some?
    ensures newest.Some? ==> o.directives == [Step] && o.output == []
    ensures newest.None? ==> o.directives == [] && o.output == [NoInitialFrame]
  {
    var reset := s.(callTree := map[], currentDepth := 0, done := false, initial := newest);
    if newest.None? then Outcome(reset, [], [NoInitialFrame])
    else Outcome(reset.(subscribed := true), [Step], [])
  }

  /** `invoke(arg)`, given the debugger's newest frame (if any). */
  function Invoke(s: Session, arg: string, newest: Option<FrameId>): (o: Outcome)
    ensures ParseDepthLimit(arg, s.maxDepth).None? ==> o == Outcome(s, [], [DepthNotInteger])
    ensures ParseDepthLimit(arg, s.maxDepth).Some? ==>
      o.session.maxDepth == ParseDepthLimit(arg, s.maxDepth).value &&
      o.session.callTree == map[] && o.session.currentDepth == 0 && !o.session.done &&
      o.session.initial == newest &&
      (o.session.subscribed <==> s.subscribed || newest.Some?) &&
      (o.directives == if newest.Some? then [Step] else []) &&
      (o.output == if newest.Some? then [] else [NoInitialFrame])
    ensures Valid(s) ==> Valid(o.session)
  {
    match ParseDepthLimit(arg, s.maxDepth)
    case None => Outcome(s, [], [DepthNotInteger])
    case Some(limit) => Start(s.(maxDepth := limit), newest)
  }

  /** `stop_handler` for one pause, given the stack newest frame first and
      the newest frame's function name. */
  function Stop(s: Session, chain: Chain, name: string): (o: Outcome)
    ensures s.done ==> o == Outcome(s, [], [])
    ensures !s.done && chain == [] ==> o == Outcome(s, [], [NoFrame])
    ensures !s.done && chain != [] ==>
      var d := Depth(chain, s.initial);
      var stalled := d == s.currentDepth;
      o.session.currentDepth == d &&
      o.session.callTree == Record(s.callTree, d, name) &&
      o.session.maxDepth == s.maxDepth && o.session.initial == s.initial &&
      (o.session.done <==> d == 0) &&
      (o.session.subscribed <==> s.subscribed && d != 0) &&
      |o.directives| == (if stalled then 1 else 0) + (if d == 0 then 0 else 1) &&
      (stalled ==> o.directives[0] == Step) &&
      (d != 0 ==> (o.directives[|o.directives| - 1] == Step <==> d < s.maxDepth)) &&
      (o.output == if d == 0 then Render(o.session.callTree) else [])
    ensures |o.directives| <= 2
    ensures Extends(s.callTree, o.session.callTree)
    ensures Valid(s) ==> Valid(o.session)
  {
    if s.done then Outcome(s, [], [])
    else if chain == [] then Outcome(s, [], [NoFrame])
    else
      var d := Depth(chain, s.initial);
      var retry := if d == s.currentDepth then [Step] else [];
      var tree := Record(s.callTree, d, name);
      var recorded := s.(currentDepth := d, callTree := tree);
      if d == 0 then
        Outcome(recorded.(done := true, subscribed := false), retry, Render(tree))
      else
        Outcome(recorded, retry + [if d < s.maxDepth then Step else Finish], [])
  }

  /** What holds of the command's state between events: depths are never
      negative, and a finished session has disconnected its handler after
      recording the return to the initial frame. */
  predicate Valid(s: Session) {
    s.currentDepth >= 0 &&
    (forall k :: k in s.callTree ==> k >= 0) &&
    (s.done ==> !s.subscribed && s.currentDepth == 0 && 0 in s.callTree)
  }

  lemma RegisteredValid()
    ensures Valid(Registered)
  {
  }

  /** `call-tree --depth N` sets the limit to `N` for every integer `N`,
      negative ones included. */
  lemma InvokeSetsDepth(s: Session, n: int, newest: Option<FrameId>)
    ensures ParseDepthLimit("--depth " + ShowInt(n), s.maxDepth) == Some(n)
    ensures Invoke(s, "--depth " + ShowInt(n), newest).session.maxDepth == n
  {
    var ws := ["--depth", ShowInt(n)];
    assert IsWord("--depth");
    assert IsWord(ShowInt(n)) by {
      if n < 0 {
        assert ShowInt(n) == "-" + ShowNat(-n);
      }
    }
    SplitUnwords(ws);
    assert Unwords(ws) == "--depth " + ShowInt(n);
    ParseShowInt(n);
  }

  /** Any argument that is not exactly `--depth` followed by one more word
      leaves the limit as the previous invocation set it. */
  lemma InvokeKeepsLimit(s: Session, ws: seq<string>, newest: Option<FrameId>)
    requires forall i :: 0 <= i < |ws| ==> IsWord(ws[i])
    requires |ws| != 2 || ws[0] != "--depth"
    ensures Invoke(s, Unwords(ws), newest).session.maxDepth == s.maxDepth
  {
    SplitUnwords(ws);
    assert !IsDepthOption(Split(Unwords(ws)));
    assert ParseDepthLimit(Unwords(ws), s.maxDepth) == Some(s.maxDepth);
  }

  /** `call-tree --depth X` with a word `X` that is not an integer changes
      nothing, issues nothing and only prints an error. */
  lemma InvokeRejects(s: Session, x: string, newest: Option<FrameId>)
    requires IsWord(x) && !IsIntLiteral(x)
    ensures Invoke(s, "--depth " + x, newest) == Outcome(s, [], [DepthNotInteger])
  {
    var ws := ["--depth", x];
    assert IsWord("--depth");
    SplitUnwords(ws);
    assert Unwords(ws) == "--depth " + x;
  }

}

=== FILE: depth.dfy ===
/** The depth walk of the stop handler: from the newest frame, follow
    `older()` links until the frame the command started in is met or the
    chain runs out. */
module DepthTracker {

  import opened Options

  /** Identity of a stack frame, as compared by `!=` on gdb frames. */
  type FrameId = nat

  /** A stack seen at a pause, newest frame first; `chain[i + 1]` is what
      `chain[i].older()` returns, and the last frame has no older one. */
  type Chain = seq<FrameId>

  /** The number of `older()` hops taken from the newest frame before the
      initial frame is met, or the whole chain's length when it never is
      (including when no initial frame was stored). */
  function Depth(chain: Chain, initial: Option<FrameId>): (d: nat)
    ensures d <= |chain|
    ensures forall i :: 0 <= i < d ==> Some(chain[i]) != initial
    ensures d < |chain| ==> Some(chain[d]) == initial
    ensures initial.None? ==> d == |chain|
  {
    if chain == [] || Some(chain[0]) == initial then 0
    else 1 + Depth(chain[1..], initial)
  }

  /** The index of the first occurrence of `initial`, when there is one. */
  lemma DepthIsFirstIndex(chain: Chain, initial: FrameId, k: nat)
    requires k < |chain| && chain[k] == initial
    requires forall i :: 0 <= i < k ==> chain[i] != initial
    ensures Depth(chain, Some(initial)) == k
  {
  }

  /** The depth is zero exactly when the newest frame is the initial one
      (or there is no frame at all). */
  lemma DepthZero(chain: Chain, initial: Option<FrameId>)
    ensures Depth(chain, initial) == 0 <==> chain == [] || Some(chain[0]) == initial
  {
  }

  /** A call entered from the current frame adds one to the depth, as long
      as the initial frame is not the callee. */
  lemma {:induction false} DepthPush(chain: Chain, initial: Option<FrameId>, callee: FrameId)
    requires Some(callee) != initial
    ensures Depth([callee] + chain, initial) == Depth(chain, initial) + 1
  {
    assert ([callee] + chain)[1..] == chain;
  }

}

=== FILE: options.dfy ===
/** The optional value used wherever the command may find nothing:
    a missing frame, or text that is not an integer. */
module Options {

  datatype Option<+T> = None | Some(value: T)

}

=== FILE: runs.dfy ===
/** A session as the debugger drives it: the stop handler applied to one
    pause after another, each pause handled to completion before the next
    (nested stops raised by the handler's own directives are not modelled
    as such; each is simply the next pause). */
module Runs {

  import opened Options
  import opened DepthTracker
  import opened CallTree
  import opened CallTreeCommand

  /** One pause: the stack, newest frame first, and the newest frame's name. */
  datatype Pause = Pause(chain: Chain, name: string)

  /** The outcome of each pause in turn, each starting from the state the
      previous one left. */
  function Run(s: Session, ps: seq<Pause>): (outs: seq<Outcome>)
    ensures |outs| == |ps|
    decreases |ps|
  {
    if ps == [] then []
    else
      var o := Stop(s, ps[0].chain, ps[0].name);
      [o] + Run(o.session, ps[1..])
  }

  /** The state the `i`-th pause starts from. */
  function Before(s: Session, outs: seq<Outcome>, i: nat): Session
    requires i <= |outs|
  {
    if i == 0 then s else outs[i - 1].session
  }

  /** The `i`-th pause is the one that ends the session. */
  predicate Ends(s: Session, outs: seq<Outcome>, i: nat)
    requires i < |outs|
  {
    !Before(s, outs, i).done && outs[i].session.done
  }

  lemma {:induction false} RunTail(s: Session, ps: seq<Pause>, i: nat)
    requires 0 < i < |ps|
    ensures Run(s, ps)[i] == Run(Stop(s, ps[0].chain, ps[0].name).session, ps[1..])[i - 1]
  {
  }

  /** Each pause is handled from the state the previous pause left (the
      first from the starting state). */
  lemma {:induction false} RunAt(s: Session, ps: seq<Pause>, i: nat)
    requires i < |ps|
    ensures Run(s, ps)[i] == Stop(Before(s, Run(s, ps), i), ps[i].chain, ps[i].name)
    decreases |ps|
  {
    if i > 0 {
      var o := Stop(s, ps[0].chain, ps[0].name);
      RunAt(o.session, ps[1..], i - 1);
      RunTail(s, ps, i);
      if i > 1 {
        RunTail(s, ps, i - 1);
      }
    }
  }

  /** A finished session ignores every further pause. */
  lemma {:induction false} RunFromDone(s: Session, ps: seq<Pause>, k: nat)
    requires s.done && k < |ps|
    ensures Run(s, ps)[k] == Outcome(s, [], [])
    decreases |ps|
  {
    if k > 0 {
      RunFromDone(s, ps[1..], k - 1);
    }
  }

  /** Once a pause has ended the session, every later pause changes nothing,
      issues no directive and prints nothing. */
  lemma {:induction false} RunSilentAfterDone(s: Session, ps: seq<Pause>, i: nat, j: nat)
    requires i < j < |ps|
    requires Run(s, ps)[i].session.done
    ensures Run(s, ps)[j] == Outcome(Run(s, ps)[i].session, [], [])
    decreases |ps|
  {
    var o := Stop(s, ps[0].chain, ps[0].name);
    if i == 0 {
      RunFromDone(o.session, ps[1..], j - 1);
    } else {
      RunSilentAfterDone(o.session, ps[1..], i - 1, j - 1);
    }
  }

  /** At most one pause of a run ends the session. */
  lemma EndsOnce(s: Session, ps: seq<Pause>, i: nat, j: nat)
    requires i < j < |ps|
    requires Ends(s, Run(s, ps), i)
    ensures !Ends(s, Run(s, ps), j)
  {
    var outs := Run(s, ps);
    if j - 1 > i {
      RunSilentAfterDone(s, ps, i, j - 1);
    }
    assert Before(s, outs, j) == outs[j - 1].session;
  }

  /** Each pause's tree extends the tree the run started from. */
  lemma {:induction false} RunExtendsStart(s: Session, ps: seq<Pause>, j: nat)
    requires j < |ps|
    ensures Extends(s.callTree, Run(s, ps)[j].session.callTree)
  {
    var outs := Run(s, ps);
    var before := Before(s, outs, j);
    RunAt(s, ps, j);
    if j > 0 {
      RunExtendsStart(s, ps, j - 1);
      ExtendsTransitive(s.callTree, before.callTree, outs[j].session.callTree);
    }
  }

  /** The tree only grows from pause to pause: nothing recorded is ever
      removed, reordered or changed. */
  lemma {:induction false} RunAppendOnly(s: Session, ps: seq<Pause>, i: nat, j: nat)
    requires i <= j < |ps|
    ensures Extends(Run(s, ps)[i].session.callTree, Run(s, ps)[j].session.callTree)
    decreases j - i
  {
    var outs := Run(s, ps);
    if i == j {
      ExtendsReflexive(outs[i].session.callTree);
    } else {
      RunAppendOnly(s, ps, i, j - 1);
      RunAt(s, ps, j);
      ExtendsTransitive(outs[i].session.callTree, outs[j - 1].session.callTree, outs[j].session.callTree);
    }
  }

  /** Every state of a run from a valid state is valid. */
  lemma {:induction false} RunValid(s: Session, ps: seq<Pause>, i: nat)
    requires Valid(s) && i < |ps|
    ensures Valid(Run(s, ps)[i].session)
    decreases |ps|
  {
    if i > 0 {
      RunValid(Stop(s, ps[0].chain, ps[0].name).session, ps[1..], i - 1);
    }
  }

  /** No pause changes the limit or the frame depths are measured from. */
  lemma {:induction false} KeepsFields(s: Session, ps: seq<Pause>, i: nat)
    requires i < |ps|
    ensures Run(s, ps)[i].session.maxDepth == s.maxDepth
    ensures Run(s, ps)[i].session.initial == s.initial
  {
    RunAt(s, ps, i);
    if i > 0 {
      KeepsFields(s, ps, i - 1);
    }
  }

  /** After a pause that issued `finish`, the next pause is in a shallower
      frame: the caller the `finish` returned to. */
  predicate FinishReturns(o: Outcome, p: Pause) {
    o.directives != [] && o.directives[|o.directives| - 1] == Finish ==>
      Depth(p.chain, o.session.initial) < o.session.currentDepth
  }

  /** One step of `StallBelowLimit`: a pause at the depth the previous
      pause recorded, when that pause's `finish` would have returned to a
      shallower frame, was reached by `step`, so that depth is below the
      limit. */
  lemma StallAfterStep(prev: Session, p: Pause, q: Pause)
    requires !prev.done && p.chain != []
    requires FinishReturns(Stop(prev, p.chain, p.name), q)
    requires Depth(q.chain, prev.initial) == Stop(prev, p.chain, p.name).session.currentDepth != 0
    ensures Depth(q.chain, prev.initial) < prev.maxDepth
  {
  }

  /** A stall (a pause at the depth already recorded) never happens at the
      limit, provided every `finish` returns to a shallower frame: a pause
      at or past the limit issues `finish`, so the next pause is shallower
      and cannot stall. Without that proviso a stall at the limit issues
      `step` and then `finish`. */
  lemma StallBelowLimit(s: Session, ps: seq<Pause>, i: nat)
    requires !s.done && s.currentDepth == 0
    requires forall k :: 0 <= k < |ps| ==> ps[k].chain != []
    requires forall k :: 0 < k < |ps| ==> FinishReturns(Run(s, ps)[k - 1], ps[k])
    requires i < |ps| && !Before(s, Run(s, ps), i).done
    requires Depth(ps[i].chain, s.initial) == Before(s, Run(s, ps), i).currentDepth != 0
    ensures Depth(ps[i].chain, s.initial) < s.maxDepth
  {
    var outs := Run(s, ps);
    assert i > 0;
    var prev := Before(s, outs, i - 1);
    RunAt(s, ps, i - 1);
    assert outs[i - 1] == Stop(prev, ps[i - 1].chain, ps[i - 1].name);
    if i - 1 > 0 {
      KeepsFields(s, ps, i - 2);
    }
    assert prev.initial == s.initial && prev.maxDepth == s.maxDepth;
    if prev.done {
      assert false;
    }
    assert ps[i - 1].chain != [];
    assert FinishReturns(outs[i - 1], ps[i]);
    StallAfterStep(prev, ps[i - 1], ps[i]);
  }

  /** After a pause that issued `step`, the next pause is at most one frame
      deeper: `step` enters at most one call. */
  predicate StepDescends(o: Outcome, p: Pause) {
    o.directives != [] && o.directives[|o.directives| - 1] == Step ==>
      Depth(p.chain, o.session.initial) <= o.session.currentDepth + 1
  }

  /** Neither the current depth nor any recorded depth exceeds `bound`. */
  predicate Within(s: Session, bound: int) {
    s.currentDepth <= bound && forall k :: k in s.callTree ==> k <= bound
  }

  /** One step of `RunDepthBound`: a pause that does not end the session
      leaves its successor within any bound that covers both its own depth
      and the limit, when `step` and `finish` move as the debugger does. */
  lemma DepthAfterPause(prev: Session, p: Pause, q: Pause, bound: int)
    requires !prev.done && p.chain != [] && prev.maxDepth <= bound
    requires !Stop(prev, p.chain, p.name).session.done
    requires Stop(prev, p.chain, p.name).session.currentDepth <= bound
    requires FinishReturns(Stop(prev, p.chain, p.name), q)
    requires StepDescends(Stop(prev, p.chain, p.name), q)
    ensures Depth(q.chain, prev.initial) <= bound
  {
  }

  /** A pause at a depth within `bound` keeps the state within it. */
  lemma WithinAfterStop(before: Session, p: Pause, bound: int)
    requires Within(before, bound)
    requires p.chain != [] ==> Depth(p.chain, before.initial) <= bound
    ensures Within(Stop(before, p.chain, p.name).session, bound)
  {
  }

  /** The depth bound the command is for: in a run that starts tracing
      with an empty tree, where the first pause is at most one call deep,
      each `step` enters at most one call and each `finish` returns to a
      shallower frame, no depth above the limit is ever reached or
      recorded. A limit of 0 or less still lets depth 1 in, since the
      first call is recorded before its `finish`. */
  lemma {:induction false} RunDepthBound(s: Session, ps: seq<Pause>, i: nat)
    requires !s.done && s.currentDepth == 0 && s.callTree == map[]
    requires forall k :: 0 <= k < |ps| ==> ps[k].chain != []
    requires |ps| > 0 ==> Depth(ps[0].chain, s.initial) <= 1
    requires forall k :: 0 < k < |ps| ==>
      FinishReturns(Run(s, ps)[k - 1], ps[k]) && StepDescends(Run(s, ps)[k - 1], ps[k])
    requires i < |ps|
    ensures Within(Run(s, ps)[i].session, if s.maxDepth > 1 then s.maxDepth else 1)
  {
    var bound := if s.maxDepth > 1 then s.maxDepth else 1;
    var outs := Run(s, ps);
    var before := Before(s, outs, i);
    RunAt(s, ps, i);
    if i == 0 {
      assert Within(s, bound);
      WithinAfterStop(s, ps[0], bound);
      return;
    }
    RunDepthBound(s, ps, i - 1);
    assert Within(before, bound);
    if before.done {
      assert outs[i].session == before;
      return;
    }
    var prev := Before(s, outs, i - 1);
    RunAt(s, ps, i - 1);
    assert outs[i - 1] == Stop(prev, ps[i - 1].chain, ps[i - 1].name);
    if i - 1 > 0 {
      KeepsFields(s, ps, i - 2);
    }
    assert prev.maxDepth == s.maxDepth;
    if prev.done {
      assert false;
    }
    assert ps[i - 1].chain != [];
    assert FinishReturns(outs[i - 1], ps[i]) && StepDescends(outs[i - 1], ps[i]);
    DepthAfterPause(prev, ps[i - 1], ps[i], bound);
    WithinAfterStop(before, ps[i], bound);
  }

}

=== FILE: scenarios.dfy ===
/** Concrete sessions. `main` is the frame the command was started in;
    `foo` and `bar` are frames of functions it calls. */
module Scenarios {

  import opened Options
  import opened Text
  import opened DepthTracker
  import opened CallTree
  import opened CallTreeCommand
  import opened Runs

  /** A session in progress, started in frame `main`. */
  function Tracing(maxDepth: int, tree: Tree, depth: int, main: FrameId): Session {
    Session(maxDepth, tree, depth, false, Some(main), true)
  }

  /** `call-tree --depth N` in frame `main` starts tracing with an empty
      tree and issues the first `step`. */
  lemma Launch(n: int, main: FrameId)
    ensures Invoke(Registered, "--depth " + ShowInt(n), Some(main))
      == Outcome(Tracing(n, map[], 0, main), [Step], [])
  {
    InvokeSetsDepth(Registered, n, Some(main));
  }

  lemma FlatCallsDown(main: FrameId, foo: FrameId, bar: FrameId)
    requires main != foo && main != bar && foo != bar
    ensures Stop(Tracing(2, map[], 0, main), [foo, main], "foo")
      == Outcome(Tracing(2, map[1 := ["foo"]], 1, main), [Step], [])
    ensures Stop(Tracing(2, map[1 := ["foo"]], 1, main), [bar, foo, main], "bar")
      == Outcome(Tracing(2, map[1 := ["foo"], 2 := ["bar"]], 2, main), [Finish], [])
  {
    assert Depth([foo, main], Some(main)) == 1;
    assert Depth([bar, foo, main], Some(main)) == 2;
  }

  lemma FlatCallsBack(main: FrameId, foo: FrameId)
    requires main != foo
    ensures Stop(Tracing(2, map[1 := ["foo"], 2 := ["bar"]], 2, main), [foo, main], "foo")
      == Outcome(Tracing(2, map[1 := ["foo", "foo"], 2 := ["bar"]], 1, main), [Step], [])
  {
    assert Depth([foo, main], Some(main)) == 1;
    assert ["foo"] + ["foo"] == ["foo", "foo"];
  }

  lemma FlatCallsEnd(main: FrameId)
    ensures var o := Stop(Tracing(2, map[1 := ["foo", "foo"], 2 := ["bar"]], 1, main), [main], "main");
      o.directives == [] && o.session.done && !o.session.subscribed &&
      o.session.callTree == map[0 := ["main"], 1 := ["foo", "foo"], 2 := ["bar"]]
  {
    assert Depth([main], Some(main)) == 0;
    assert Record(map[1 := ["foo", "foo"], 2 := ["bar"]], 0, "main")
      == map[0 := ["main"], 1 := ["foo", "foo"], 2 := ["bar"]];
  }

  /** `main` calls `foo`, which calls `bar`, with the limit at 2: `step`,
      `step`, `finish`, `step`, then the session ends. The return from `bar`
      to `foo` is recorded as a second `foo` at depth 1: the dictionary
      keeps one list of names per depth, not a tree of calls. */
  lemma FlatCalls(main: FrameId, foo: FrameId, bar: FrameId)
    requires main != foo && main != bar && foo != bar
    ensures var outs := Run(Tracing(2, map[], 0, main),
        [Pause([foo, main], "foo"), Pause([bar, foo, main], "bar"),
         Pause([foo, main], "foo"), Pause([main], "main")]);
      outs[0].directives == [Step] && outs[1].directives == [Finish] &&
      outs[2].directives == [Step] && outs[3].directives == [] &&
      outs[3].session.done && !outs[3].session.subscribed &&
      outs[3].session.callTree == map[0 := ["main"], 1 := ["foo", "foo"], 2 := ["bar"]]
  {
    var s0 := Tracing(2, map[], 0, main);
    var s1 := Tracing(2, map[1 := ["foo"]], 1, main);
    var s2 := Tracing(2, map[1 := ["foo"], 2 := ["bar"]], 2, main);
    var s3 := Tracing(2, map[1 := ["foo", "foo"], 2 := ["bar"]], 1, main);
    var ps := [Pause([foo, main], "foo"), Pause([bar, foo, main], "bar"),
               Pause([foo, main], "foo"), Pause([main], "main")];
    FlatCallsDown(main, foo, bar);
    FlatCallsBack(main, foo);
    FlatCallsEnd(main);
    var outs := Run(s0, ps);
    RunAt(s0, ps, 0);
    RunAt(s0, ps, 1);
    RunAt(s0, ps, 2);
    RunAt(s0, ps, 3);
  }

  /** With the limit at 1 the handler finishes `foo` instead of stepping
      into its callees, so in this run nothing deeper than depth 1 is
      recorded (`Runs.RunDepthBound` states the bound for every run). */
  lemma DepthCap(main: FrameId, foo: FrameId)
    requires main != foo
    ensures var outs := Run(Tracing(1, map[], 0, main), [Pause([foo, main], "foo"), Pause([main], "main")]);
      outs[0].directives == [Finish] && outs[1].directives == [] &&
      outs[1].session.done && outs[1].session.callTree == map[0 := ["main"], 1 := ["foo"]]
  {
    var s0 := Tracing(1, map[], 0, main);
    var ps := [Pause([foo, main], "foo"), Pause([main], "main")];
    assert Depth([foo, main], Some(main)) == 1;
    assert Depth([main], Some(main)) == 0;
    assert Record(map[1 := ["foo"]], 0, "main") == map[0 := ["main"], 1 := ["foo"]];
    RunAt(s0, ps, 0);
    RunAt(s0, ps, 1);
  }

  /** A first step that stays in the initial function is a stall at depth
      0: the retry `step` is issued and the session ends at once, having
      recorded and printed only the initial function. */
  lemma StallAtStart(main: FrameId)
    ensures var o := Stop(Tracing(2, map[], 0, main), [main], "main");
      o.directives == [Step] && o.session.done && !o.session.subscribed &&
      o.session.callTree == map[0 := ["main"]] && o.output == ["main"]
  {
    assert Depth([main], Some(main)) == 0;
    var t: Tree := map[0 := ["main"]];
    assert Record(map[], 0, "main") == t;
    assert t.Keys == {0};
    assert MinKey({0}) == 0;
    assert {0} - {0} == {};
    assert SortedKeys({0}) == [0];
    assert Render(t) == Lines(0, ["main"]);
    assert Line(0, "main") == "main";
  }

}

=== FILE: text.dfy ===
/** The two pieces of Python string handling the command's argument parser
    relies on: `str.split()` with no separator, and `int()` on a token. */
module Text {

  import opened Options

  /** Python's `str.isspace` for a single character: the characters
      `str.split()` with no separator treats as separators. */
  predicate IsSpace(c: char) {
    var n := c as int;
    (9 <= n <= 13) || (28 <= n <= 32) || n == 0x85 || n == 0xA0 || n == 0x1680
    || (0x2000 <= n <= 0x200A) || n == 0x2028 || n == 0x2029 || n == 0x202F
    || n == 0x205F || n == 0x3000
  }

  /** A token `str.split()` can produce: non-empty, with no separator in it. */
  predicate IsWord(w: string) {
    |w| > 0 && forall i :: 0 <= i < |w| ==> !IsSpace(w[i])
  }

  /** The longest prefix of `s` that holds no separator. */
  function Word(s: string): (w: string)
    ensures w <= s
    ensures forall i :: 0 <= i < |w| ==> !IsSpace(w[i])
    ensures |w| < |s| ==> IsSpace(s[|w|])
  {
    if s == [] || IsSpace(s[0]) then [] else [s[0]] + Word(s[1..])
  }

  /** `s.split()`: the maximal runs of non-separator characters, in order. */
  function Split(s: string): (ws: seq<string>)
    ensures forall i :: 0 <= i < |ws| ==> IsWord(ws[i])
    decreases |s|
  {
    if s == [] then []
    else if IsSpace(s[0]) then Split(s[1..])
    else
      var w := Word(s);
      [w] + Split(s[|w|..])
  }

  /** Tokens joined by single blanks, the inverse of `Split` on tokens. */
  function Unwords(ws: seq<string>): string {
    if ws == [] then []
    else if |ws| == 1 then ws[0]
    else ws[0] + " " + Unwords(ws[1..])
  }

  function Concat(ws: seq<string>): string {
    if ws == [] then [] else ws[0] + Concat(ws[1..])
  }

  /** The characters of `s` that are not separators, in order. */
  function Squeeze(s: string): string {
    if s == [] then []
    else if IsSpace(s[0]) then Squeeze(s[1..])
    else [s[0]] + Squeeze(s[1..])
  }

  lemma {:induction false} WordOfJoined(w: string, t: string)
    requires IsWord(w)
    requires t == [] || IsSpace(t[0])
    ensures Word(w + t) == w
    decreases |w|
  {
    var s := w + t;
    assert s[0] == w[0];
    if |w| > 1 {
      assert s[1..] == w[1..] + t;
      WordOfJoined(w[1..], t);
    } else {
      assert s[1..] == t;
    }
  }

  /** Splitting blank-joined tokens gives the tokens back. */
  lemma {:induction false} SplitUnwords(ws: seq<string>)
    requires forall i :: 0 <= i < |ws| ==> IsWord(ws[i])
    ensures Split(Unwords(ws)) == ws
  {
    if ws == [] {
    } else if |ws| == 1 {
      WordOfJoined(ws[0], []);
      assert ws[0] + [] == ws[0];
      assert ws[0][|ws[0]|..] == [];
    } else {
      var w := ws[0];
      var u := Unwords(ws[1..]);
      var s := w + " " + u;
      assert s == w + (" " + u);
      WordOfJoined(w, " " + u);
      assert s[0] == w[0];
      assert s[|w|..] == " " + u;
      assert (" " + u)[1..] == u;
      SplitUnwords(ws[1..]);
    }
  }

  lemma {:induction false} WordPrefix(x: string, t: string)
    requires x != [] && t != [] && IsSpace(t[0])
    ensures Word(x + t) == Word(x)
    decreases |x|
  {
    var s := x + t;
    assert s[0] == x[0];
    if !IsSpace(x[0]) {
      assert s[1..] == x[1..] + t;
      if x[1..] != [] {
        WordPrefix(x[1..], t);
      }
    }
  }

  /** Every separator character ends a token: splitting around one
      separator gives the tokens on its left followed by those on its
      right. With `SplitUnwords` on a single word this fixes `Split` on
      every input. */
  lemma {:induction false} SplitAtSpace(x: string, c: char, y: string)
    requires IsSpace(c)
    ensures Split(x + [c] + y) == Split(x) + Split(y)
    decreases |x|
  {
    var s := x + [c] + y;
    if x == [] {
      assert s == [c] + y;
      assert s[1..] == y;
    } else if IsSpace(x[0]) {
      assert s[0] == x[0];
      assert s[1..] == x[1..] + [c] + y;
      SplitAtSpace(x[1..], c, y);
    } else {
      var w := Word(x);
      assert s == x + ([c] + y);
      WordPrefix(x, [c] + y);
      assert s[0] == x[0];
      assert s[|w|..] == x[|w|..] + [c] + y;
      SplitAtSpace(x[|w|..], c, y);
      assert Split(x) == [w] + Split(x[|w|..]);
    }
  }

  lemma {:induction false} SqueezeWord(s: string)
    requires s != [] && !IsSpace(s[0])
    ensures Squeeze(s) == Word(s) + Squeeze(s[|Word(s)|..])
    decreases |s|
  {
    var t := s[1..];
    var w1 := Word(t);
    assert Word(s) == [s[0]] + w1;
    assert Squeeze(s) == [s[0]] + Squeeze(t);
    assert s[|Word(s)|..] == t[|w1|..];
    if t != [] && !IsSpace(t[0]) {
      SqueezeWord(t);
    } else {
      assert w1 == [];
      assert t[|w1|..] == t;
    }
  }

  /** Nothing but the separators is lost: the tokens, glued together, are
      exactly the non-separator characters of the input. */
  lemma {:induction false} ConcatSplit(s: string)
    ensures Concat(Split(s)) == Squeeze(s)
    decreases |s|
  {
    if s == [] {
    } else if IsSpace(s[0]) {
      ConcatSplit(s[1..]);
    } else {
      var w := Word(s);
      SqueezeWord(s);
      ConcatSplit(s[|w|..]);
      assert Split(s) == [w] + Split(s[|w|..]);
      assert ([w] + Split(s[|w|..]))[1..] == Split(s[|w|..]);
    }
  }

  predicate IsDigit(c: char) {
    '0' <= c <= '9'
  }

  predicate AllDigits(s: string) {
    forall i :: 0 <= i < |s| ==> IsDigit(s[i])
  }

  /** The value of a run of decimal digits, most significant first. */
  function DigitsValue(s: string): nat
    requires AllDigits(s)
  {
    if s == [] then 0
    else DigitsValue(s[..|s| - 1]) * 10 + (s[|s| - 1] as int - '0' as int)
  }

  /** The subset of `int()` literals modelled: an optional sign and at least
      one ASCII decimal digit. */
  predicate IsIntLiteral(s: string) {
    if |s| > 0 && (s[0] == '-' || s[0] == '+') then |s| > 1 && AllDigits(s[1..])
    else |s| > 0 && AllDigits(s)
  }

  /** `int(s)` for one token: `None` where Python raises `ValueError`. */
  function ParseInt(s: string): (r: Option<int>)
    ensures r.Some? <==> IsIntLiteral(s)
    ensures r.Some? && |s| > 0 && s[0] == '-' ==> r.value <= 0
    ensures r.Some? && |s| > 0 && s[0] != '-' ==> r.value >= 0
  {
    if |s| > 0 && (s[0] == '-' || s[0] == '+') then
      if |s| > 1 && AllDigits(s[1..]) then
        var n: int := DigitsValue(s[1..]);
        Some(if s[0] == '-' then -n else n)
      else None
    else if |s| > 0 && AllDigits(s) then Some(DigitsValue(s))
    else None
  }

  /** Decimal rendering of a natural number, without leading zeros. */
  function ShowNat(n: nat): (s: string)
    ensures |s| > 0 && AllDigits(s)
  {
    var d := [('0' as int + n % 10) as char];
    if n < 10 then d else ShowNat(n / 10) + d
  }

  /** Python's `str(n)`. */
  function ShowInt(n: int): string {
    if n < 0 then "-" + ShowNat(-n) else ShowNat(n)
  }

  lemma {:induction false} DigitsValueShowNat(n: nat)
    ensures DigitsValue(ShowNat(n)) == n
  {
    var s := ShowNat(n);
    if n >= 10 {
      DigitsValueShowNat(n / 10);
      assert s[..|s| - 1] == ShowNat(n / 10);
    }
  }

  /** `int(str(n)) == n` for every integer, negative ones included. */
  lemma ParseShowInt(n: int)
    ensures ParseInt(ShowInt(n)) == Some(n)
  {
    if n < 0 {
      var s := ShowInt(n);
      assert s[1..] == ShowNat(-n);
      DigitsValueShowNat(-n);
    } else {
      DigitsValueShowNat(n);
    }
  }

}
